=== FILE: README.md ===
# AnalogClock: a Dafny model of the clock logic

AnalogClock is an educational analog clock written in React. It shows a dial
with an hour hand and a minute hand, optional numerals, and a digital readout
in 12- or 24-hour form. The labels come in English or Chinese. The time is
either *live*, refreshed once a second from the wall clock, or *manual*, set
with two sliders.

This project models the two pieces of integer logic inside that UI and proves
properties of them:

- `types.dfy`, module `Types`: the time record (`TimeState`) and its ranges,
  the closed `Language` union, and the edit-field union `'hours' | 'minutes'`.
  It also holds the record update `{ ...prev, [field]: value }`.
- `js_number.dfy`, module `JsNumber`: the JavaScript number operations the
  code relies on, on integers. These are `%`, which truncates toward zero
  unlike Dafny's `%`, `Number.prototype.toString()` and `padStart`. A decimal
  reader, `ParseDecimal`, is the reference that rendering is checked against.
- `clock_face.dfy`, module `ClockFace`: hand angles, tick marks, and the
  major/minor rule. The hour hand moves half a degree per minute, so its
  angle is kept in half-degrees, where it is an integer. `HourDegrees` is the
  component's own degree formula over `real`. A lemma shows that it is
  exactly half of the integer angle.
- `app.dfy`, module `App`: the application state and its transitions.
  - The state holds the time, live/manual, show numerals, 24-hour, and
    language.
  - The transitions are start-up, the timer tick, a slider edit and the four
    toggles.
  - The file also has the two-digit formatter and the digital readout.
  - An event-trace layer (`Step`, `Run`) strings transitions together. In
    it, a timer event is impossible while the state is manual.

The wall clock is a parameter. `Init` and `Tick` receive a reading
(`TimeState`) instead of calling `new Date()`. The repeating timer is replaced
by the `Tick` transition, which requires live mode.

Three behaviours of the code are easy to misread:

- An edit stores the slider value as given. It is not clamped. Validity is
  kept only because the sliders produce 0..23 and 0..59 (`EditKeepsValid`).
- Switching from manual back to live only flips the flag. The time is not
  re-read at that moment. The next timer firing refreshes it, so `ToggleLive`
  leaves `time` unchanged.
- The 12-hour suffix is `" AM"` / `" PM"`, with a leading space, not
  `"AM"` / `"PM"`.

## Model

| member | source | states |
|---|---|---|
| Types.ParseLanguage | types.ts:2 | only the strings "en" and "zh" are languages |
| Types.LanguageCodeRoundTrip | types.ts:2 | each language has its own code, and reading a code back gives exactly that language |
| Types.FieldName | types.ts:21 | no edit field is called "seconds": seconds are never user-editable |
| Types.FieldNameRoundTrip | types.ts:21 | the edit-field union is exactly hours or minutes: a field name reads back as that field and nothing else |
| Types.FieldMax | components/ControlPanel.tsx:67-90 | the hours slider goes up to 23 and the minutes slider to 59 |
| Types.SetField | App.tsx:60-61 | the record update sets the named field to the value and keeps the other field and the seconds |
| Types.SetFieldKeepsValid | types.ts:5-9 | from a time with hours 0..23, minutes 0..59 and seconds 0..59, an update stays in range exactly when the value is within the field's slider range |
| JsNumber.Rem | App.tsx:103 | JavaScript `%`: dividend = truncated quotient × divisor + remainder, and the remainder has the sign of the dividend and is smaller than the divisor in magnitude |
| JsNumber.RemOfNonNegative | components/ClockFace.tsx:15 | on non-negative operands such as hours, JavaScript `%` agrees with the mathematical remainder |
| JsNumber.NatToString | App.tsx:94 | `toString()` of a natural number is a non-empty digit string with no leading zero that reads back as the number; it is one digit long for 0..9 and two for 10..99 |
| JsNumber.ToString | App.tsx:94 | an integer is rendered as its decimal digits with no leading zero ("0" only for zero), preceded by a minus sign when negative, and reads back as the number |
| JsNumber.PadStart | App.tsx:94 | `padStart` reaches the target length by adding pad characters in front and keeps the original string as the suffix |
| JsNumber.ParseDecimalLeadingZero | App.tsx:94 | the zero added by padding does not change the value of the digits |
| ClockFace.HourHalfDegrees | components/ClockFace.tsx:15 | for hours 0..23 and minutes 0..59 the hour angle lies in 0..719 half-degrees, i.e. 0..359.5 degrees |
| ClockFace.HalfDegreesAreExact | components/ClockFace.tsx:15 | the degree formula `(h % 12) * 30 + m * 0.5` is exactly half the half-degree angle, and lies in 0..359.5 |
| ClockFace.HourDegrees | components/ClockFace.tsx:15 | the hour angle in degrees as the component writes it lies in 0..359.5 for valid times and is exactly half the half-degree angle |
| ClockFace.IsMajor | components/ClockFace.tsx:27 | a position is major exactly when its JavaScript remainder by 3 is 0; among 1..12 that is exactly 3, 6, 9 and 12 |
| ClockFace.MinuteDegrees | components/ClockFace.tsx:19 | the minute angle is a multiple of 6; for minutes 0..59 it lies in 0..354 and is exactly 6 degrees per minute |
| ClockFace.HandsAgree | components/ClockFace.tsx:12-19 | past its hour mark the hour hand has moved a twelfth of the minute hand's angle (in half-degrees, one per six degrees) |
| ClockFace.HourAngleHasPeriodTwelve | components/ClockFace.tsx:15 | hours h and h + 12 put the hour hand in the same place |
| ClockFace.HourHandBetweenMarks | components/ClockFace.tsx:12-15 | the hour hand lies between the mark of its hour and the next mark, and on the mark exactly when minutes are 0 |
| ClockFace.HourAngleIncreasesWithMinutes | components/ClockFace.tsx:14-15 | for a fixed hour the hour angle strictly increases with the minutes |
| ClockFace.HourAngleIsMinutesSinceTwelve | components/ClockFace.tsx:12-15 | the hour angle in half-degrees equals the minutes elapsed since the hand last pointed at twelve, `(60h + m) mod 720` |
| ClockFace.HourAngleDeterminesTime | components/ClockFace.tsx:15 | two valid times give the same hour angle exactly when they agree on the hour modulo 12 and on the minutes |
| ClockFace.Ticks | components/ClockFace.tsx:24-27 | there are twelve tick marks |
| ClockFace.TickRotations | components/ClockFace.tsx:25-26 | tick i is at (i+1)·30 degrees, 30 degrees after the one before, from 30 up to 360 |
| ClockFace.TickRotationsDistinctAndComplete | components/ClockFace.tsx:25-26 | no two ticks share a rotation, and the rotations are exactly the multiples of 30 from 30 to 360 |
| ClockFace.MajorTicksAreQuarters | components/ClockFace.tsx:27 | the major positions are exactly 3, 6, 9 and 12, four of the twelve |
| ClockFace.Numerals | components/ClockFace.tsx:46-55 | numerals are produced if and only if `showNumbers` is set, and then there are twelve |
| ClockFace.NumeralsMatchTicks | components/ClockFace.tsx:58-68 | numeral i carries the number i+1 and is major exactly when tick i is, i.e. at 3, 6, 9 and 12 |
| App.Init | App.tsx:9-25 | start-up is live, shows numerals, uses the 24-hour readout and English, and holds the wall-clock reading |
| App.InitAsWritten | App.tsx:9-25 | as written, hours, minutes and seconds each come from their own wall-clock reading; the start-up flags are the same as in `Init` |
| App.InitAsWrittenAgreesOnOneSample | App.tsx:12-16 | when the three readings agree, the written start-up state is the intended one |
| App.InitAsWrittenTearsAcrossTheHour | App.tsx:12-16 | readings at 10:59:59 and 11:00:00 combine into 10:00:00, which is neither reading |
| App.Tick | App.tsx:34-44 | a timer firing happens only while live, replaces hours, minutes and seconds with the reading, and keeps live mode and the preferences |
| App.Edit | App.tsx:56-64 | a slider edit always leaves live mode, sets the named field to the value as given, and keeps the other field, the seconds and the preferences |
| App.EditKeepsValid | App.tsx:56-64 | from a valid state an edit yields a valid state exactly when the value is in the slider's range |
| App.ToggleLive | App.tsx:68-70 | the live button negates live mode and changes nothing else, in particular not the time |
| App.ToggleShowNumbers | App.tsx:73-76 | flips the numerals flag only |
| App.ToggleIs24Hour | App.tsx:79-82 | flips the 12/24-hour flag only |
| App.ToggleLanguage | App.tsx:85-91 | switches to the other language and changes nothing else |
| App.TogglesAreInvolutions | App.tsx:68-91 | applying any toggle twice restores the state |
| App.PreferencesAreOrthogonal | App.tsx:56-91 | preference toggles commute with edits and with the live button |
| App.FormatNumber | App.tsx:94 | for 0..99 the result is exactly the two decimal digits of n, zero-padded, and reads back as n; from 10 up it is the plain `toString()` |
| App.TwelveHour | App.tsx:103-104 | the 12-hour hour lies in 1..12 and agrees with the hour modulo 12, so 0 and 12 show as 12 |
| App.GetDisplayTime | App.tsx:97-113 | 24-hour mode has an empty suffix and the hour padded to two digits; 12-hour mode has suffix " PM" iff hours ≥ 12 and " AM" iff hours < 12, with the 12-hour hour padded; minutes and seconds are padded in both modes |
| App.TwelveHourRoundTrip | App.tsx:101-105 | the 12-hour hour together with AM/PM gives back the 24-hour hour |
| App.DisplayTimeRoundTrip | App.tsx:97-113 | in either mode a valid time can be read back exactly from its readout |
| App.DisplayTimeDistinguishes | App.tsx:97-113 | two valid times have the same readout exactly when they are equal |
| App.DisplayTimeSamples | App.tsx:97-113 | 00:05 reads "12" AM, 12:00 reads "12" PM, 13:05:09 reads "01" "05" "09" PM in 12-hour mode and "13" "05" "09" in 24-hour mode |
| App.Step | App.tsx:34-91 | an event can happen unless it is a timer firing while manual |
| App.EditSuspendsTimer | App.tsx:56-58 | right after an edit the timer cannot fire, so the edited value is not overwritten |
| App.RunKeepsValid | App.tsx:37-64 | every run of well-formed events keeps the time in range, where well-formed means clock readings in range and slider values in slider range |
| App.ManualTimeIsFrozen | App.tsx:31-53 | in manual mode, without edits or the live button, the time and the mode never change, and a run is possible exactly when it contains no timer firing |

## Left out

- Numeral x/y positions (components/ClockFace.tsx:61-65): these use
  `Math.sin` and `Math.cos` on floating point. `Numeral` keeps only the
  number and the major flag.
- The `setInterval` / `clearInterval` lifecycle and the effect cleanup
  (App.tsx:31-53). They are timer plumbing. The model keeps only their effect:
  `Tick` requires live mode, and `Step` refuses a timer event while manual.
- The wall clock (`new Date()`). Readings are parameters of `Init`,
  `InitAsWritten` and `Tick`.
- App.Tick: does not require the reading to be in range, because `Date`
  always yields hours 0..23 and minutes and seconds 0..59. `RunKeepsValid`
  takes that as its `WellFormed` hypothesis.
- JsNumber.ToString: models `toString()` on unbounded integers; JavaScript
  numbers are doubles, so from 10^21 on the rendering switches to exponent
  form and above 2^53 the digits are rounded. The clock only formats 0..59.
- JsNumber.NatToString: the same magnitude limit as `JsNumber.ToString`.
- App.FormatNumber: the model covers integers only. Non-integer numbers and
  `NaN` cannot come from the sliders (`parseInt`) or from `Date`.
- How the readout is laid out in the markup (App.tsx:131-138). This covers
  the seconds shown only while live and the suffix shown only in 12-hour
  mode. It is presentation, not logic.
- The description generator in services/geminiService.ts. It is a network
  call to an external SDK.
- components/ControlPanel.tsx and components/SettingsModal.tsx are markup.
  Only the slider bounds are used, as `Types.FieldMax`.
- index.tsx, which mounts the DOM, and constants.ts, the translation
  strings.
- SVG styling and the `console.log` calls.

## Findings

| source | as written | input that shows it | evidently intended | confidence | as-written member | corrected member |
|---|---|---|---|---|---|---|
| App.tsx:12-16 | the initial time takes hours, minutes and seconds from three separate `new Date()` calls | readings 10:59:59 then 11:00:00 give the initial time 10:00:00, an hour off | one reading supplies all three fields | medium (the wrong time shows for at most one second before the first tick); not executed | App.InitAsWrittenTearsAcrossTheHour | App.Init |

=== FILE: app.dfy ===
/** The application state of the clock (App.tsx): the shown time, whether it
    follows the wall clock (live) or was set by hand (manual), the three
    display preferences, and the digital readout derived from them. */
module App {
  import opened Types
  import opened JsNumber

  datatype AppState = AppState(
    time: TimeState,
    isLive: bool,
    showNumbers: bool,
    is24Hour: bool,
    language: Language
  )

  /** The state every transition is meant to keep: a time within range. */
  predicate ValidState(s: AppState) {
    ValidTime(s.time)
  }

  /** The state at start-up, from one reading of the wall clock: live,
      numerals shown, 24-hour readout, English. */
  function Init(sample: TimeState): (s: AppState)
    ensures s.time == sample
    ensures s.isLive && s.showNumbers && s.is24Hour && s.language == En
    ensures ValidTime(sample) ==> ValidState(s)
  {
    AppState(sample, true, true, true, En)
  }

  /** The start-up state as the component builds it: the hours, minutes and
      seconds each come from a separate reading of the wall clock. */
  function InitAsWritten(hoursSample: TimeState, minutesSample: TimeState, secondsSample: TimeState): (s: AppState)
    ensures s.time.hours == hoursSample.hours
    ensures s.time.minutes == minutesSample.minutes
    ensures s.time.seconds == secondsSample.seconds
    ensures s.isLive && s.showNumbers && s.is24Hour && s.language == En
  {
    AppState(TimeState(hoursSample.hours, minutesSample.minutes, secondsSample.seconds), true, true, true, En)
  }

  /** When the three readings agree, the component's start-up state is the
      intended one. */
  lemma InitAsWrittenAgreesOnOneSample(sample: TimeState)
    ensures InitAsWritten(sample, sample, sample) == Init(sample)
  {
  }

  /** Readings taken just before and just after 11:00:00 combine into 10:00:00,
      a time an hour away from both readings. */
  lemma InitAsWrittenTearsAcrossTheHour()
    ensures var before := TimeState(10, 59, 59);
            var after := TimeState(11, 0, 0);
            && InitAsWritten(before, after, after).time == TimeState(10, 0, 0)
            && InitAsWritten(before, after, after).time != before
            && InitAsWritten(before, after, after).time != after
  {
  }

  /** One firing of the once-a-second timer: the whole time is replaced by a
      fresh reading of the wall clock. The timer exists only while live. */
  function Tick(s: AppState, sample: TimeState): (r: AppState)
    requires s.isLive
    ensures r.time == sample
    ensures r.isLive
    ensures r.showNumbers == s.showNumbers && r.is24Hour == s.is24Hour && r.language == s.language
  {
    s.(time := sample)
  }

  /** A manual change of one field from the sliders: leaves live mode, then
      stores the value as given. Nothing clamps it; only the slider range
      keeps it valid (see `EditKeepsValid`). */
  function Edit(s: AppState, field: TimeField, value: int): (r: AppState)
    ensures !r.isLive
    ensures GetField(r.time, field) == value
    ensures forall g: TimeField :: g != field ==> GetField(r.time, g) == GetField(s.time, g)
    ensures r.time.seconds == s.time.seconds
    ensures r.showNumbers == s.showNumbers && r.is24Hour == s.is24Hour && r.language == s.language
  {
    s.(isLive := false, time := SetField(s.time, field, value))
  }

  /** An edit keeps a valid state valid exactly when the value is one the
      field's slider can produce. */
  lemma EditKeepsValid(s: AppState, field: TimeField, value: int)
    requires ValidState(s)
    ensures ValidState(Edit(s, field, value)) <==> InFieldRange(field, value)
  {
  }

  /** Flips between live and manual; the time is left as it is, also when
      going back to live, where only the next timer firing refreshes it. */
  function ToggleLive(s: AppState): (r: AppState)
    ensures r.isLive == !s.isLive
    ensures r.time == s.time
    ensures r.showNumbers == s.showNumbers && r.is24Hour == s.is24Hour && r.language == s.language
  {
    s.(isLive := !s.isLive)
  }

  function ToggleShowNumbers(s: AppState): (r: AppState)
    ensures r.showNumbers == !s.showNumbers
    ensures r.time == s.time && r.isLive == s.isLive
    ensures r.is24Hour == s.is24Hour && r.language == s.language
  {
    s.(showNumbers := !s.showNumbers)
  }

  function ToggleIs24Hour(s: AppState): (r: AppState)
    ensures r.is24Hour == !s.is24Hour
    ensures r.time == s.time && r.isLive == s.isLive
    ensures r.showNumbers == s.showNumbers && r.language == s.language
  {
    s.(is24Hour := !s.is24Hour)
  }

  function ToggleLanguage(s: AppState): (r: AppState)
    ensures r.language != s.language
    ensures r.time == s.time && r.isLive == s.isLive
    ensures r.showNumbers == s.showNumbers && r.is24Hour == s.is24Hour
  {
    var newLang := if s.language == En then Zh else En;
    s.(language := newLang)
  }

  /** Each toggle undoes itself. */
  lemma TogglesAreInvolutions(s: AppState)
    ensures ToggleLive(ToggleLive(s)) == s
    ensures ToggleShowNumbers(ToggleShowNumbers(s)) == s
    ensures ToggleIs24Hour(ToggleIs24Hour(s)) == s
    ensures ToggleLanguage(ToggleLanguage(s)) == s
  {
  }

  /** The display preferences are independent of the time and of the mode:
      toggling one commutes with every change of those. */
  lemma PreferencesAreOrthogonal(s: AppState, field: TimeField, value: int)
    ensures ToggleShowNumbers(Edit(s, field, value)) == Edit(ToggleShowNumbers(s), field, value)
    ensures ToggleIs24Hour(Edit(s, field, value)) == Edit(ToggleIs24Hour(s), field, value)
    ensures ToggleLanguage(Edit(s, field, value)) == Edit(ToggleLanguage(s), field, value)
    ensures ToggleShowNumbers(ToggleLive(s)) == ToggleLive(ToggleShowNumbers(s))
    ensures ToggleIs24Hour(ToggleLive(s)) == ToggleLive(ToggleIs24Hour(s))
    ensures ToggleLanguage(ToggleLive(s)) == ToggleLive(ToggleLanguage(s))
  {
  }

  /** `n.toString().padStart(2, '0')`. */
  function FormatNumber(n: int): (r: string)
    ensures 0 <= n <= 99 ==> r == [DigitChar(n / 10), DigitChar(n % 10)]
    ensures 0 <= n <= 99 ==> AllDigits(r) && ParseDecimal(r) == n
    ensures n >= 10 ==> r == ToString(n)
  {
    var digits := ToString(n);
    var r := PadStart(digits, 2, '0');
    if 0 <= n <= 9 then
      assert r == ['0'] + digits;
      ParseDecimalLeadingZero(digits);
      r
    else if 10 <= n <= 99 then
      assert digits == NatToString(n / 10) + [DigitChar(n % 10)];
      r
    else
      r
  }

  /** The hour as a twelve-hour clock shows it: midnight and noon read 12. */
  function TwelveHour(hours: int): (h: int)
    ensures hours >= 0 ==> 1 <= h <= 12 && h % 12 == hours % 12
  {
    var h := Rem(hours, 12);
    if h == 0 then 12 else h
  }

  /** The digital readout: zero-padded hours, minutes and seconds, and the
      AM/PM suffix (empty in 24-hour mode). */
  datatype DisplayTime = DisplayTime(hoursStr: string, minutesStr: string, secondsStr: string, suffix: string)

  function GetDisplayTime(t: TimeState, is24Hour: bool): (d: DisplayTime)
    ensures is24Hour ==> d.suffix == "" && d.hoursStr == FormatNumber(t.hours)
    ensures !is24Hour ==> (d.suffix == " PM" <==> t.hours >= 12)
    ensures !is24Hour ==> (d.suffix == " AM" <==> t.hours < 12)
    ensures !is24Hour ==> d.hoursStr == FormatNumber(TwelveHour(t.hours))
    ensures d.minutesStr == FormatNumber(t.minutes) && d.secondsStr == FormatNumber(t.seconds)
  {
    var h := t.hours;
    var suffix := if !is24Hour then (if h >= 12 then " PM" else " AM") else "";
    var shown := if !is24Hour then TwelveHour(h) else h;
    DisplayTime(FormatNumber(shown), FormatNumber(t.minutes), FormatNumber(t.seconds), suffix)
  }

  /** Reading a twelve-hour clock back into 0..23. */
  function FromTwelveHour(h: int, pm: bool): (hours: int)
    ensures 1 <= h <= 12 ==> if pm then 12 <= hours <= 23 else 0 <= hours <= 11
  {
    (if h == 12 then 0 else h) + (if pm then 12 else 0)
  }

  /** The twelve-hour hour together with AM/PM determines the 24-hour hour. */
  lemma TwelveHourRoundTrip(hours: int)
    requires 0 <= hours <= 23
    ensures FromTwelveHour(TwelveHour(hours), hours >= 12) == hours
  {
  }

  /** Reads a readout back into a time; fails on anything but digit strings. */
  function ReadDisplayTime(d: DisplayTime, is24Hour: bool): Option<TimeState> {
    if !AllDigits(d.hoursStr) || !AllDigits(d.minutesStr) || !AllDigits(d.secondsStr) then None
    else
      var h := ParseDecimal(d.hoursStr);
      var hours := if is24Hour then h else FromTwelveHour(h, d.suffix == " PM");
      Some(TimeState(hours, ParseDecimal(d.minutesStr), ParseDecimal(d.secondsStr)))
  }

  /** The readout loses nothing: in either mode a valid time can be read
      back from it exactly. */
  lemma DisplayTimeRoundTrip(t: TimeState, is24Hour: bool)
    requires ValidTime(t)
    ensures ReadDisplayTime(GetDisplayTime(t, is24Hour), is24Hour) == Some(t)
  {
    // Minutes, seconds and the 24-hour hour read back by the contract of
    // FormatNumber; the 12-hour hour needs the AM/PM suffix as well.
    TwelveHourRoundTrip(t.hours);
  }

  /** Consequently two different valid times never share a readout. */
  lemma DisplayTimeDistinguishes(t1: TimeState, t2: TimeState, is24Hour: bool)
    requires ValidTime(t1) && ValidTime(t2)
    ensures GetDisplayTime(t1, is24Hour) == GetDisplayTime(t2, is24Hour) <==> t1 == t2
  {
    if GetDisplayTime(t1, is24Hour) == GetDisplayTime(t2, is24Hour) {
      DisplayTimeRoundTrip(t1, is24Hour);
      DisplayTimeRoundTrip(t2, is24Hour);
    }
  }

  /** The readouts for a few sample times. */
  lemma DisplayTimeSamples()
    ensures GetDisplayTime(TimeState(0, 5, 0), false).hoursStr == "12"
    ensures GetDisplayTime(TimeState(0, 5, 0), false).suffix == " AM"
    ensures GetDisplayTime(TimeState(12, 0, 0), false).hoursStr == "12"
    ensures GetDisplayTime(TimeState(12, 0, 0), false).suffix == " PM"
    ensures GetDisplayTime(TimeState(13, 5, 9), false) == DisplayTime("01", "05", "09", " PM")
    ensures GetDisplayTime(TimeState(13, 5, 9), true) == DisplayTime("13", "05", "09", "")
  {
    assert TwelveHour(0) == 12 && TwelveHour(12) == 12 && TwelveHour(13) == 1;
    assert FormatNumber(12) == "12" && FormatNumber(13) == "13" && FormatNumber(1) == "01";
    assert FormatNumber(5) == "05" && FormatNumber(9) == "09";
  }

  /** Everything that can change the state: a timer firing with a reading
      of the wall clock, a slider move, or one of the four buttons. */
  datatype Event =
    | TimerFired(now: TimeState)
    | SliderMoved(field: TimeField, value: int)
    | LivePressed
    | NumbersPressed
    | FormatPressed
    | LanguagePressed

  /** The timer is cleared whenever the state is manual, so it cannot fire
      then; every other event can happen at any time. */
  predicate CanHappen(s: AppState, e: Event) {
    e.TimerFired? ==> s.isLive
  }

  /** What the environment is meant to deliver: readings of a real clock and
      slider values within the slider's range. */
  predicate WellFormed(e: Event) {
    match e
    case TimerFired(now) => ValidTime(now)
    case SliderMoved(field, value) => InFieldRange(field, value)
    case _ => true
  }

  /** The state after one event, or `None` when the event cannot happen. */
  function Step(s: AppState, e: Event): (r: Option<AppState>)
    ensures r.Some? <==> CanHappen(s, e)
  {
    match e
    case TimerFired(now) => if s.isLive then Some(Tick(s, now)) else None
    case SliderMoved(field, value) => Some(Edit(s, field, value))
    case LivePressed => Some(ToggleLive(s))
    case NumbersPressed => Some(ToggleShowNumbers(s))
    case FormatPressed => Some(ToggleIs24Hour(s))
    case LanguagePressed => Some(ToggleLanguage(s))
  }

  /** The state after a sequence of events, or `None` when one of them
      could not have happened in the state it arrived in. */
  function Run(s: AppState, es: seq<Event>): Option<AppState>
    decreases |es|
  {
    if es == [] then Some(s)
    else match Step(s, es[0])
      case None => None
      case Some(s') => Run(s', es[1..])
  }

  /** After a slider move the timer cannot overwrite the value just set. */
  lemma EditSuspendsTimer(s: AppState, field: TimeField, value: int, now: TimeState)
    ensures Step(Edit(s, field, value), TimerFired(now)) == None
    ensures Run(s, [SliderMoved(field, value), TimerFired(now)]) == None
  {
  }

  /** No sequence of well-formed events leads from a valid state to an
      invalid one. */
  lemma {:induction false} RunKeepsValid(s: AppState, es: seq<Event>)
    requires ValidState(s)
    requires forall i :: 0 <= i < |es| ==> WellFormed(es[i])
    ensures Run(s, es).Some? ==> ValidState(Run(s, es).value)
    decreases |es|
  {
    if es != [] {
      var e := es[0];
      match Step(s, e)
      case None =>
      case Some(s') =>
        assert WellFormed(e);
        if e.SliderMoved? {
          EditKeepsValid(s, e.field, e.value);
        }
        RunKeepsValid(s', es[1..]);
    }
  }

  /** Events that leave the time and the mode to themselves: the preference
      buttons and the timer. */
  predicate LeavesTimeAlone(e: Event) {
    !e.SliderMoved? && !e.LivePressed?
  }

  /** In manual mode, without slider moves or a press of the live button, the
      time stays frozen: the timer can never fire, and the preference
      buttons do not touch the time. */
  lemma {:induction false} ManualTimeIsFrozen(s: AppState, es: seq<Event>)
    requires !s.isLive
    requires forall i :: 0 <= i < |es| ==> LeavesTimeAlone(es[i])
    ensures Run(s, es).Some? <==> forall i :: 0 <= i < |es| ==> !es[i].TimerFired?
    ensures Run(s, es).Some? ==> Run(s, es).value.time == s.time && !Run(s, es).value.isLive
    decreases |es|
  {
    if es != [] {
      assert LeavesTimeAlone(es[0]);
      match Step(s, es[0])
      case None =>
      case Some(s') =>
        ManualTimeIsFrozen(s', es[1..]);
        assert forall i :: 1 <= i < |es| ==> es[i] == es[1..][i - 1];
    }
  }
}

=== FILE: clock_face.dfy ===
/** Geometry of the analog dial (components/ClockFace.tsx): the rotation of
    the two hands, the twelve tick marks, and which numerals are drawn.
    Angles are measured clockwise from twelve o'clock. The hour hand moves
    half a degree per minute, so its angle is kept in half-degrees, where it
    is an integer. */
module ClockFace {
  import JsNumber
  import opened Types

  /** Twice the hour-hand angle: 60 half-degrees per hour of the twelve-hour
      dial plus one half-degree per minute. */
  function HourHalfDegrees(hours: int, minutes: int): (a: int)
    ensures 0 <= hours <= 23 && 0 <= minutes <= 59 ==> 0 <= a <= 719
  {
    JsNumber.Rem(hours, 12) * 60 + minutes
  }

  /** The hour-hand angle in degrees, written as the component computes it. */
  function HourDegrees(hours: int, minutes: int): (deg: real)
    ensures 0 <= hours <= 23 && 0 <= minutes <= 59 ==> 0.0 <= deg <= 359.5
    ensures deg * 2.0 == HourHalfDegrees(hours, minutes) as real
  {
    (JsNumber.Rem(hours, 12) * 30) as real + minutes as real * 0.5
  }

  /** The half-degree angle is exactly twice the component's degree value,
      so nothing is lost by working in integers. */
  lemma HalfDegreesAreExact(hours: int, minutes: int)
    ensures HourDegrees(hours, minutes) * 2.0 == HourHalfDegrees(hours, minutes) as real
    ensures 0 <= hours <= 23 && 0 <= minutes <= 59 ==> 0.0 <= HourDegrees(hours, minutes) <= 359.5
  {
  }

  /** The minute-hand angle in degrees: six degrees per minute. */
  function MinuteDegrees(minutes: int): (a: int)
    ensures a % 6 == 0
    ensures 0 <= minutes <= 59 ==> 0 <= a <= 354 && a / 6 == minutes
  {
    minutes * 6
  }

  /** The two hands agree: past its hour mark the hour hand has moved one
      half-degree for every six degrees of the minute hand, a twelfth of the
      minute hand's angle. */
  lemma HandsAgree(hours: int, minutes: int)
    requires 0 <= hours <= 23 && 0 <= minutes <= 59
    ensures HourHalfDegrees(hours, minutes) - 60 * (hours % 12) == MinuteDegrees(minutes) / 6
  {
  }

  /** The hour hand reads the hour on a twelve-hour dial: `h` and `h + 12`
      put it in the same place. */
  lemma HourAngleHasPeriodTwelve(hours: int, minutes: int)
    requires hours >= 0
    ensures HourHalfDegrees(hours + 12, minutes) == HourHalfDegrees(hours, minutes)
  {
  }

  /** Within an hour the hour hand sits between that hour's mark and the
      next one, on the mark itself only at the full hour. */
  lemma HourHandBetweenMarks(hours: int, minutes: int)
    requires hours >= 0 && 0 <= minutes <= 59
    ensures 60 * (hours % 12) <= HourHalfDegrees(hours, minutes) < 60 * (hours % 12 + 1)
    ensures HourHalfDegrees(hours, minutes) == 60 * (hours % 12) <==> minutes == 0
  {
  }

  /** The hour hand moves continuously: for a fixed hour it advances with
      every minute. */
  lemma HourAngleIncreasesWithMinutes(hours: int, m1: int, m2: int)
    requires m1 < m2
    ensures HourHalfDegrees(hours, m1) < HourHalfDegrees(hours, m2)
  {
  }

  /** Independent reading of the hour hand: its half-degree angle is the
      number of minutes elapsed since the hand last pointed at twelve. */
  lemma HourAngleIsMinutesSinceTwelve(hours: int, minutes: int)
    requires 0 <= hours <= 23 && 0 <= minutes <= 59
    ensures HourHalfDegrees(hours, minutes) == (hours * 60 + minutes) % 720
  {
  }

  /** Two valid times put the hour hand in the same place exactly when
      they agree on the twelve-hour dial. */
  lemma HourAngleDeterminesTime(h1: int, m1: int, h2: int, m2: int)
    requires 0 <= h1 <= 23 && 0 <= m1 <= 59
    requires 0 <= h2 <= 23 && 0 <= m2 <= 59
    ensures HourHalfDegrees(h1, m1) == HourHalfDegrees(h2, m2) <==> h1 % 12 == h2 % 12 && m1 == m2
  {
  }

  /** Dial positions 3, 6, 9 and 12 are major; the same rule is applied to
      tick marks and to numerals. */
  function IsMajor(position: int): (major: bool)
    ensures position >= 0 ==> (major <==> position % 3 == 0)
    ensures 1 <= position <= 12 ==> (major <==> position in {3, 6, 9, 12})
  {
    JsNumber.Rem(position, 3) == 0
  }

  /** A tick mark: its rotation in degrees and whether it is drawn large. */
  datatype Tick = Tick(rotation: int, major: bool)

  /** The twelve tick marks, for positions 1 to 12 in order. */
  function Ticks(): (ts: seq<Tick>)
    ensures |ts| == 12
  {
    seq(12, i => Tick((i + 1) * 30, IsMajor(i + 1)))
  }

  /** Tick `i` stands at position `i + 1`, 30 degrees further round than the
      one before; the first is at 30 degrees and the last at 360, the top. */
  lemma TickRotations(i: int)
    requires 0 <= i < 12
    ensures Ticks()[i].rotation == 30 * (i + 1)
    ensures i > 0 ==> Ticks()[i].rotation == Ticks()[i - 1].rotation + 30
    ensures Ticks()[0].rotation == 30 && Ticks()[11].rotation == 360
  {
  }

  /** No two ticks share a rotation, and the rotations are exactly the
      multiples of 30 from 30 to 360. */
  lemma TickRotationsDistinctAndComplete()
    ensures forall i, j :: 0 <= i < j < 12 ==> Ticks()[i].rotation != Ticks()[j].rotation
    ensures forall r :: r in TickRotationSet() <==> 30 <= r <= 360 && r % 30 == 0
  {
    forall r | 30 <= r <= 360 && r % 30 == 0
      ensures r in TickRotationSet()
    {
      var i := r / 30 - 1;
      assert Ticks()[i].rotation == r;
    }
  }

  function TickRotationSet(): set<int> {
    set i | 0 <= i < 12 :: Ticks()[i].rotation
  }

  /** The positions on the dial whose ticks are major. */
  function MajorPositions(): set<int> {
    set i | 0 <= i < 12 && Ticks()[i].major :: i + 1
  }

  /** Exactly positions 3, 6, 9 and 12 are major: four of the twelve. */
  lemma MajorTicksAreQuarters()
    ensures MajorPositions() == {3, 6, 9, 12}
    ensures |MajorPositions()| == 4
  {
    forall p | p in {3, 6, 9, 12}
      ensures p in MajorPositions()
    {
      assert Ticks()[p - 1].major;
    }
  }

  /** A numeral on the dial. Its x/y position is computed with sine and
      cosine and is not part of this model. */
  datatype Numeral = Numeral(num: int, major: bool)

  /** The numerals 1 to 12, or nothing at all when they are switched off. */
  function Numerals(showNumbers: bool): (r: Option<seq<Numeral>>)
    ensures r.Some? <==> showNumbers
    ensures r.Some? ==> |r.value| == 12
  {
    if !showNumbers then None
    else Some(seq(12, i => Numeral(i + 1, IsMajor(i + 1))))
  }

  /** Numerals carry the numbers 1 to 12 in order and are emphasised at the
      same positions as the tick marks. */
  lemma NumeralsMatchTicks(i: int)
    requires 0 <= i < 12
    ensures Numerals(true).value[i].num == i + 1
    ensures Numerals(true).value[i].major == Ticks()[i].major
    ensures Numerals(true).value[i].major <==> i + 1 in {3, 6, 9, 12}
  {
  }
}

=== FILE: js_number.dfy ===
/** The few JavaScript number operations the clock relies on, restricted to
    integers: the `%` operator, `Number.prototype.toString()` in base 10 and
    `String.prototype.padStart` with a one-character pad. */
module JsNumber {

  function Abs(x: int): int {
    if x < 0 then -x else x
  }

  /** The integer quotient JavaScript's `%` is defined by: the exact
      quotient truncated toward zero. */
  function TruncQuot(a: int, b: int): int
    requires b != 0
  {
    if a >= 0 then a / b else -((-a) / b)
  }

  /** JavaScript's `a % b`, the remainder left by the truncated quotient, so
      it takes the sign of `a` (Dafny's own `%` is never negative). */
  function Rem(a: int, b: int): (r: int)
    requires b != 0
    ensures a == TruncQuot(a, b) * b + r
    ensures a >= 0 ==> 0 <= r < Abs(b)
    ensures a < 0 ==> -Abs(b) < r <= 0
  {
    if a >= 0 then a % b else -((-a) % b)
  }

  /** On a non-negative dividend the JavaScript remainder and Dafny's agree. */
  lemma RemOfNonNegative(a: int, b: int)
    requires a >= 0 && b != 0
    ensures Rem(a, b) == a % b
  {
  }

  predicate IsDigit(c: char) {
    '0' <= c <= '9'
  }

  predicate AllDigits(s: string) {
    forall i :: 0 <= i < |s| ==> IsDigit(s[i])
  }

  function DigitValue(c: char): (d: int)
    requires IsDigit(c)
    ensures 0 <= d <= 9
  {
    c as int - '0' as int
  }

  function DigitChar(d: int): (c: char)
    requires 0 <= d <= 9
    ensures IsDigit(c) && DigitValue(c) == d
  {
    ('0' as int + d) as char
  }

  /** The value of a decimal digit string, most significant digit first;
      the reference that rendering is checked against. */
  function ParseDecimal(s: string): nat
    requires AllDigits(s)
    decreases |s|
  {
    if s == [] then 0 else ParseDecimal(s[..|s| - 1]) * 10 + DigitValue(s[|s| - 1])
  }

  /** Base-10 rendering of a natural number: shortest form, no leading zero. */
  function NatToString(n: nat): (s: string)
    ensures |s| >= 1 && AllDigits(s)
    ensures ParseDecimal(s) == n
    ensures s[0] == '0' ==> n == 0
    ensures n <= 9 <==> |s| == 1
    ensures 10 <= n <= 99 <==> |s| == 2
  {
    if n < 10 then [DigitChar(n)]
    else
      var prefix := NatToString(n / 10);
      var s := prefix + [DigitChar(n % 10)];
      assert s[..|s| - 1] == prefix;
      s
  }

  /** `Number.prototype.toString()` on an integer: a minus sign before the
      digits of the magnitude when negative. */
  function ToString(n: int): (s: string)
    ensures n >= 0 ==> |s| >= 1 && AllDigits(s) && ParseDecimal(s) == n
    ensures n >= 0 ==> (s[0] == '0' ==> s == "0")
    ensures n < 0 ==> |s| >= 2 && s[0] == '-' && AllDigits(s[1..]) && ParseDecimal(s[1..]) == -n
    ensures n < 0 ==> s[1] != '0'
  {
    if n < 0 then "-" + NatToString(-n) else NatToString(n)
  }

  /** `s.padStart(targetLength, pad)` for a one-character pad string: the pad
      is repeated in front until the target length is reached, and a string
      that is already long enough is returned unchanged. */
  function PadStart(s: string, targetLength: nat, pad: char): (r: string)
    ensures |r| == if |s| >= targetLength then |s| else targetLength
    ensures r[|r| - |s|..] == s
    ensures forall i :: 0 <= i < |r| - |s| ==> r[i] == pad
  {
    if |s| >= targetLength then s else seq(targetLength - |s|, _ => pad) + s
  }

  /** A leading zero does not change the value of a digit string. */
  lemma {:induction false} ParseDecimalLeadingZero(s: string)
    requires AllDigits(s)
    ensures AllDigits(['0'] + s)
    ensures ParseDecimal(['0'] + s) == ParseDecimal(s)
  {
    var t := ['0'] + s;
    if s == [] {
      assert t[..|t| - 1] == [];
    } else {
      var init := s[..|s| - 1];
      assert t[..|t| - 1] == ['0'] + init;
      assert t[|t| - 1] == s[|s| - 1];
      ParseDecimalLeadingZero(init);
    }
  }
}

=== FILE: types.dfy ===
/** The shared data types of the clock: the time record, the display
    language and the field a manual edit may change (types.ts). */
module Types {

  datatype Option<T> = None | Some(value: T)

  /** The display language: a closed union of exactly two string literals. */
  datatype Language = En | Zh

  /** The string literal that stands for each language. */
  function LanguageCode(l: Language): (code: string)
    ensures |code| == 2
  {
    match l
    case En => "en"
    case Zh => "zh"
  }

  /** Reads a string back as a language; any other string is not a `Language`. */
  function ParseLanguage(code: string): (r: Option<Language>)
    ensures r.Some? <==> code == "en" || code == "zh"
  {
    if code == "en" then Some(En)
    else if code == "zh" then Some(Zh)
    else None
  }

  /** The two languages are told apart by their codes, and a code names at most one language. */
  lemma LanguageCodeRoundTrip(l: Language, code: string)
    ensures ParseLanguage(code) == Some(l) <==> LanguageCode(l) == code
    ensures LanguageCode(l) == "en" || LanguageCode(l) == "zh"
  {
  }

  /** The time shown on the clock. Nothing in the type itself bounds the
      fields; `ValidTime` is the range every producer is meant to respect. */
  datatype TimeState = TimeState(hours: int, minutes: int, seconds: int)

  predicate ValidTime(t: TimeState) {
    && 0 <= t.hours <= 23
    && 0 <= t.minutes <= 59
    && 0 <= t.seconds <= 59
  }

  /** The fields a manual edit may name; seconds are not among them. */
  datatype TimeField = Hours | Minutes

  function FieldName(f: TimeField): (name: string)
    ensures name != "seconds"
  {
    match f
    case Hours => "hours"
    case Minutes => "minutes"
  }

  function ParseField(name: string): (r: Option<TimeField>)
    ensures r.Some? <==> name == "hours" || name == "minutes"
  {
    if name == "hours" then Some(Hours)
    else if name == "minutes" then Some(Minutes)
    else None
  }

  lemma FieldNameRoundTrip(f: TimeField, name: string)
    ensures ParseField(name) == Some(f) <==> FieldName(f) == name
  {
  }

  /** Largest value the slider for a field produces; both sliders start at 0. */
  function FieldMax(f: TimeField): (hi: int)
    ensures f == Hours ==> hi == 23
    ensures f == Minutes ==> hi == 59
  {
    match f
    case Hours => 23
    case Minutes => 59
  }

  predicate InFieldRange(f: TimeField, v: int) {
    0 <= v <= FieldMax(f)
  }

  function GetField(t: TimeState, f: TimeField): int {
    match f
    case Hours => t.hours
    case Minutes => t.minutes
  }

  /** The record spread `{ ...prev, [field]: value }`: the named field takes
      the value as given, unclamped, and every other field is kept. */
  function SetField(t: TimeState, f: TimeField, v: int): (r: TimeState)
    ensures GetField(r, f) == v
    ensures forall g: TimeField :: g != f ==> GetField(r, g) == GetField(t, g)
    ensures r.seconds == t.seconds
  {
    match f
    case Hours => t.(hours := v)
    case Minutes => t.(minutes := v)
  }

  /** Starting from a valid time, an edit keeps the time valid exactly when
      the value lies in the range of the field's slider. */
  lemma SetFieldKeepsValid(t: TimeState, f: TimeField, v: int)
    requires ValidTime(t)
    ensures ValidTime(SetField(t, f, v)) <==> InFieldRange(f, v)
  {
  }
}
